=== FILE: README.md ===
# Split sheet: a model of the widget's state logic

`SplitSheet` is an Android view with a main content area and a sheet below it.
The user drags the sheet up to show it and down to hide it. Around the
framework code sits a small amount of logic that can be stated on its own:

- the `Position` enum and its integer decoders;
- the sheet position stored in the widget's `LayoutParams`;
- the touch tracker inside `dispatchTouchEvent`;
- the app-bar offset listener, which reports `showing`, `beginDrag` and
  `endDrag` to the widget's event listener;
- how `addView` fills the main and sheet slots;
- the early return in `show`;
- the coupling of `mScrollable` to `swipeUpToShowAllowed` in `updateShowing`.

This project models that logic as pure transitions over an immutable record
(`SplitSheet.Widget`). Each transition returns the new record and the events
it reports, in order. `Traces` puts the transitions together into arbitrary
runs, which include assignments to the public `mainView` and `sheetView`
properties, and proves properties of whole event traces.

Modules, one concept each:

- `Kotlin`: the 32-bit `Int`, `kotlin.math.abs` on it (where `abs(Int.MIN_VALUE)` is
  negative), and `Float.roundToInt()`, which rounds ties upwards and saturates.
- `Wrappers`: nullable values (`Option`, with the Elvis operator `Elvis`).
- `Positions`: `Position`, its codes, `fromInt` and `fromIntOrDefault`.
- `SheetLayout`: the split-sheet `LayoutParams`. The class invariant "the
  position key is always present" is a subset type, because every constructor
  stores that key.
- `Events`: the three events, plus the bookkeeping that says a `beginDrag` is
  reported at most once per drag.
- `Touch`: the gesture tracker (`lastEvent`, `didDrag`, `isDragging`, `isTouch`)
  over raw `MotionEvent` action codes.
- `SplitSheet`: the widget record and its entry points.
- `Traces`: runs of inputs and the properties that hold of every run.

The model keeps some behaviour exactly as the code has it:

- `isDragging` is never cleared.
- `isTouch` is cleared only by a release that follows a move, so it stays set
  after a tap.
- `addView` reads the position from the child's own layout parameters and
  ignores the `params` argument it is given.
- A motion action code other than press, move, release or cancel (multi-touch and
  hover actions, for example) matches no branch and leaves the tracker alone.

## Model

| member | source | states |
|---|---|---|
| `Kotlin.Abs` | packages/nativescript-splitsheet/src-native/SplitSheetDemo/splitsheet/src/main/java/io/github/triniwiz/splitsheet/SplitSheet.kt:204 | the absolute value the offset listener compares against the scroll range is non-negative and equal to the offset up to sign, except for `Int.MIN_VALUE`, which is its own absolute value |
| `Kotlin.RoundToInt` | packages/nativescript-splitsheet/src-native/SplitSheetDemo/splitsheet/src/main/java/io/github/triniwiz/splitsheet/SplitSheet.kt:426-431 | the stored position float is rounded to the nearest `Int` within half a unit, ties upward, saturating at the bounds of `Int` |
| `Kotlin.RoundToIntOfInt` | packages/nativescript-splitsheet/src-native/SplitSheetDemo/splitsheet/src/main/java/io/github/triniwiz/splitsheet/SplitSheet.kt:433-437 | an `Int` code stored as a float rounds back to the same code |
| `Positions.Value` | packages/nativescript-splitsheet/src-native/SplitSheetDemo/splitsheet/src/main/java/io/github/triniwiz/splitsheet/SplitSheet.kt:340-343 | the codes are as the enum declares: Undefined is -1, Top is 0, and Bottom, the remaining position, is 1 |
| `Positions.ValueInjective` | packages/nativescript-splitsheet/src-native/SplitSheetDemo/splitsheet/src/main/java/io/github/triniwiz/splitsheet/SplitSheet.kt:340-343 | no two positions share a code |
| `Positions.FromInt` | packages/nativescript-splitsheet/src-native/SplitSheetDemo/splitsheet/src/main/java/io/github/triniwiz/splitsheet/SplitSheet.kt:346-353 | a position is returned exactly for the codes -1, 0 and 1, and its code is the input; every other integer gives null |
| `Positions.FromIntOrDefault` | packages/nativescript-splitsheet/src-native/SplitSheetDemo/splitsheet/src/main/java/io/github/triniwiz/splitsheet/SplitSheet.kt:355-357 | a missing or unknown code gives the default; a known code gives the position with that code |
| `Positions.FromIntOfValue` | packages/nativescript-splitsheet/src-native/SplitSheetDemo/splitsheet/src/main/java/io/github/triniwiz/splitsheet/SplitSheet.kt:340-353 | decoding a position's own code returns that position |
| `Positions.ValueOfFromInt` | packages/nativescript-splitsheet/src-native/SplitSheetDemo/splitsheet/src/main/java/io/github/triniwiz/splitsheet/SplitSheet.kt:340-353 | `fromInt(v)` is `p` if and only if `p`'s code is `v`: decoding and the codes are inverse |
| `Positions.FromIntOrDefaultAgrees` | packages/nativescript-splitsheet/src-native/SplitSheetDemo/splitsheet/src/main/java/io/github/triniwiz/splitsheet/SplitSheet.kt:355-357 | with a present code, `fromIntOrDefault` agrees with `fromInt` when that finds a position, and gives the default otherwise |
| `SheetLayout.GetPosition` | packages/nativescript-splitsheet/src-native/SplitSheetDemo/splitsheet/src/main/java/io/github/triniwiz/splitsheet/SplitSheet.kt:425-432 | the position read back is the one whose code is the rounded stored value, or Undefined when no position has that code |
| `SheetLayout.SetPosition` | packages/nativescript-splitsheet/src-native/SplitSheetDemo/splitsheet/src/main/java/io/github/triniwiz/splitsheet/SplitSheet.kt:433-438 | after setting `p` the getter returns `p`; size, string attributes and every other numeric attribute are unchanged |
| `SheetLayout.FromSize` | packages/nativescript-splitsheet/src-native/SplitSheetDemo/splitsheet/src/main/java/io/github/triniwiz/splitsheet/SplitSheet.kt:384-386 | new parameters of a given size hold only the position attribute, and it reads back Undefined |
| `SheetLayout.FromSource` | packages/nativescript-splitsheet/src-native/SplitSheetDemo/splitsheet/src/main/java/io/github/triniwiz/splitsheet/SplitSheet.kt:388-395 | the size is copied; split-sheet sources have both attribute tables cloned, so their position is kept; any other source gives position Undefined and no other attribute |
| `SheetLayout.GenerateDefaultLayoutParams` | packages/nativescript-splitsheet/src-native/SplitSheetDemo/splitsheet/src/main/java/io/github/triniwiz/splitsheet/SplitSheet.kt:365-369 | the defaults fill the parent both ways and read back position Undefined |
| `SheetLayout.CheckLayoutParams` | packages/nativescript-splitsheet/src-native/SplitSheetDemo/splitsheet/src/main/java/io/github/triniwiz/splitsheet/SplitSheet.kt:375-377 | exactly the split-sheet parameters are accepted; converting accepted parameters returns them unchanged, and converting any others gives position Undefined |
| `SheetLayout.GetAfterSet` | packages/nativescript-splitsheet/src-native/SplitSheetDemo/splitsheet/src/main/java/io/github/triniwiz/splitsheet/SplitSheet.kt:425-438 | set then get returns the position just set, and a second set overrides the first completely |
| `SheetLayout.NewParamsAreUndefined` | packages/nativescript-splitsheet/src-native/SplitSheetDemo/splitsheet/src/main/java/io/github/triniwiz/splitsheet/SplitSheet.kt:384-395 | newly built parameters read back Undefined unless copied from split-sheet parameters, which keep their position |
| `Events.NameAndPayloadIdentify` | packages/nativescript-splitsheet/src-native/SplitSheetDemo/splitsheet/src/main/java/io/github/triniwiz/splitsheet/SplitSheet.kt:147-149 | the (name, value) pair passed to `Events.event` identifies the event |
| `Touch.Track` | packages/nativescript-splitsheet/src-native/SplitSheetDemo/splitsheet/src/main/java/io/github/triniwiz/splitsheet/SplitSheet.kt:241-262 | a press records itself and sets `isTouch`; a move counts only right after a press, recording itself and setting `isDragging`; a release or cancel records itself, sets `didDrag` and clears `isTouch` exactly when it follows a recorded move; any other code changes nothing |
| `Touch.TrackValid` | packages/nativescript-splitsheet/src-native/SplitSheetDemo/splitsheet/src/main/java/io/github/triniwiz/splitsheet/SplitSheet.kt:241-262 | each action keeps the recorded action one of the four tracked codes, and a recorded move implies `isDragging` |
| `Touch.TrackAllValid` | packages/nativescript-splitsheet/src-native/SplitSheetDemo/splitsheet/src/main/java/io/github/triniwiz/splitsheet/SplitSheet.kt:241-262 | that invariant holds after any sequence of actions |
| `Touch.InitialValid` | packages/nativescript-splitsheet/src-native/SplitSheetDemo/splitsheet/src/main/java/io/github/triniwiz/splitsheet/SplitSheet.kt:227-231 | the initial field values (`lastEvent` = UP, all flags false) satisfy the invariant |
| `Touch.MoveIdempotent` | packages/nativescript-splitsheet/src-native/SplitSheetDemo/splitsheet/src/main/java/io/github/triniwiz/splitsheet/SplitSheet.kt:246-252 | a second move is a no-op |
| `Touch.TapIsNoDrag` | packages/nativescript-splitsheet/src-native/SplitSheetDemo/splitsheet/src/main/java/io/github/triniwiz/splitsheet/SplitSheet.kt:242-261 | press then release never sets `didDrag`, and leaves `isTouch` set |
| `Touch.DragGesture` | packages/nativescript-splitsheet/src-native/SplitSheetDemo/splitsheet/src/main/java/io/github/triniwiz/splitsheet/SplitSheet.kt:241-261 | press, move, release from any state sets `didDrag` and `isDragging` and clears `isTouch` |
| `Touch.TrackAllMonotone` | packages/nativescript-splitsheet/src-native/SplitSheetDemo/splitsheet/src/main/java/io/github/triniwiz/splitsheet/SplitSheet.kt:241-261 | no sequence of touch actions clears `isDragging` or `didDrag` |
| `Touch.GestureSetsDrag` | packages/nativescript-splitsheet/src-native/SplitSheetDemo/splitsheet/src/main/java/io/github/triniwiz/splitsheet/SplitSheet.kt:241-261 | a contiguous press, move, release anywhere in a sequence leaves `didDrag` set at its end |
| `Touch.PressNeedsDown` | packages/nativescript-splitsheet/src-native/SplitSheetDemo/splitsheet/src/main/java/io/github/triniwiz/splitsheet/SplitSheet.kt:242-245 | starting from a recorded release, a press is recorded only if the sequence contains one |
| `Touch.MoveNeedsDownMove` | packages/nativescript-splitsheet/src-native/SplitSheetDemo/splitsheet/src/main/java/io/github/triniwiz/splitsheet/SplitSheet.kt:246-252 | starting from a recorded release, a move is recorded only if the sequence has a press followed by a move |
| `Touch.DragNeedsGesture` | packages/nativescript-splitsheet/src-native/SplitSheetDemo/splitsheet/src/main/java/io/github/triniwiz/splitsheet/SplitSheet.kt:253-261 | starting from a recorded release, `didDrag` becomes set only if the sequence has a press, a later move and a still later release or cancel |
| `SplitSheet.Init` | packages/nativescript-splitsheet/src-native/SplitSheetDemo/splitsheet/src/main/java/io/github/triniwiz/splitsheet/SplitSheet.kt:180-185 | after construction the widget's root is the given content root and only it is attached, both slots are empty, the sheet is hidden, scrolling and swiping up are allowed, and the tracker and listener flags have their initial values |
| `SplitSheet.UpdateShowing` | packages/nativescript-splitsheet/src-native/SplitSheetDemo/splitsheet/src/main/java/io/github/triniwiz/splitsheet/SplitSheet.kt:540-549 | sets the flag and always reports it; when swiping up to show is not allowed, `mScrollable` becomes the flag, otherwise it is kept; nothing else changes |
| `SplitSheet.Show` | packages/nativescript-splitsheet/src-native/SplitSheetDemo/splitsheet/src/main/java/io/github/triniwiz/splitsheet/SplitSheet.kt:463-475 | afterwards the flag is the requested one; `scroll` is called exactly when the flag was different; nothing else changes |
| `SplitSheet.ShowIdempotent` | packages/nativescript-splitsheet/src-native/SplitSheetDemo/splitsheet/src/main/java/io/github/triniwiz/splitsheet/SplitSheet.kt:463-467 | showing twice in the same direction: the second call changes nothing and does not call `scroll` |
| `SplitSheet.Setup` | packages/nativescript-splitsheet/src-native/SplitSheetDemo/splitsheet/src/main/java/io/github/triniwiz/splitsheet/SplitSheet.kt:298-314 | reports `showing` false and hides the sheet, then appends each filled slot's view to its container; through `updateShowing`, scrolling is disallowed when swiping up to show is not allowed and otherwise kept; nothing else changes |
| `SplitSheet.SetupWith` | packages/nativescript-splitsheet/src-native/SplitSheetDemo/splitsheet/src/main/java/io/github/triniwiz/splitsheet/SplitSheet.kt:289-296 | both slots hold the given views, which end up in their containers, and `showing` false is reported; scrolling follows the same `updateShowing` rule as in `setup`, and nothing else changes |
| `SplitSheet.ChildParams` | packages/nativescript-splitsheet/src-native/SplitSheetDemo/splitsheet/src/main/java/io/github/triniwiz/splitsheet/SplitSheet.kt:321-323 | a child's own split-sheet parameters are used as they are; any other parameters, or none, give position Undefined |
| `SplitSheet.AddView` | packages/nativescript-splitsheet/src-native/SplitSheetDemo/splitsheet/src/main/java/io/github/triniwiz/splitsheet/SplitSheet.kt:316-338 | the content root is attached to the frame; a filled slot is never overwritten; a slot takes only this child, only when its position is Undefined, main slot before sheet slot, at most one per call; an Undefined child is always taken while a slot is free; filling the sheet slot is exactly when setup runs; a child that fills no slot is dropped with no effect, and filling the main slot changes nothing else |
| `SplitSheet.AddViewIgnoresParams` | packages/nativescript-splitsheet/src-native/SplitSheetDemo/splitsheet/src/main/java/io/github/triniwiz/splitsheet/SplitSheet.kt:316-325 | the outcome of `addView` does not depend on its `params` argument |
| `SplitSheet.Slottable` | packages/nativescript-splitsheet/src-native/SplitSheetDemo/splitsheet/src/main/java/io/github/triniwiz/splitsheet/SplitSheet.kt:316-327 | the children `addView` would slot are exactly the children that are not the content root and whose position is Undefined |
| `SplitSheet.AddViewsSlots` | packages/nativescript-splitsheet/src-native/SplitSheetDemo/splitsheet/src/main/java/io/github/triniwiz/splitsheet/SplitSheet.kt:316-338 | adding children one by one into empty slots makes the first slottable child the main view and the second the sheet view, drops all later ones, and reports `showing` false once, exactly when a second one arrives |
| `SplitSheet.DispatchTouchEvent` | packages/nativescript-splitsheet/src-native/SplitSheetDemo/splitsheet/src/main/java/io/github/triniwiz/splitsheet/SplitSheet.kt:233-265 | with scrolling disabled the event is handed to the slotted children, counts as handled, and the widget is unchanged; otherwise only the tracker changes, and the frame's own dispatch decides the result |
| `SplitSheet.OnOffsetChanged` | packages/nativescript-splitsheet/src-native/SplitSheetDemo/splitsheet/src/main/java/io/github/triniwiz/splitsheet/SplitSheet.kt:190-223 | offset 0 hides and a full offset shows, with `showing` reported exactly when the flag changes; `endDrag` is reported exactly at those two positions when a drag ended, and clears `didDrag` and `didEmit`; `beginDrag` is reported exactly at an intermediate offset during a touch drag not yet reported; at most two events, `showing` first; `didDrag` changes only when `endDrag` is reported; nothing else changes |
| `SplitSheet.OffsetIdempotent` | packages/nativescript-splitsheet/src-native/SplitSheetDemo/splitsheet/src/main/java/io/github/triniwiz/splitsheet/SplitSheet.kt:190-223 | reporting the same offset twice: the second report changes nothing and reports nothing |
| `Traces.ClearedSlotReopens` | packages/nativescript-splitsheet/src-native/SplitSheetDemo/splitsheet/src/main/java/io/github/triniwiz/splitsheet/SplitSheet.kt:34-35 | assigning null to the public `mainView` frees the main slot, so the next child with an Undefined position fills it again |
| `Traces.StepBracketed` | packages/nativescript-splitsheet/src-native/SplitSheetDemo/splitsheet/src/main/java/io/github/triniwiz/splitsheet/SplitSheet.kt:188-222 | no entry point reports `beginDrag` while a drag is open, and each keeps `didEmit` equal to "a drag is open" |
| `Traces.OffsetBracketed` | packages/nativescript-splitsheet/src-native/SplitSheetDemo/splitsheet/src/main/java/io/github/triniwiz/splitsheet/SplitSheet.kt:191-222 | the same for one offset change |
| `Traces.RunBracketed` | packages/nativescript-splitsheet/src-native/SplitSheetDemo/splitsheet/src/main/java/io/github/triniwiz/splitsheet/SplitSheet.kt:188-222 | in every run of inputs, `beginDrag` is never reported while a drag is open, and `didEmit` at the end says whether one is open |
| `Traces.BeginDragOncePerDrag` | packages/nativescript-splitsheet/src-native/SplitSheetDemo/splitsheet/src/main/java/io/github/triniwiz/splitsheet/SplitSheet.kt:218-221 | in every run's trace an `endDrag` lies between any two `beginDrag`s: at most one `beginDrag` per reset |
| `Traces.StepKeepsTracker` | packages/nativescript-splitsheet/src-native/SplitSheetDemo/splitsheet/src/main/java/io/github/triniwiz/splitsheet/SplitSheet.kt:227-262 | every entry point keeps the tracker invariant and never clears `isDragging` |
| `Traces.RunKeepsTracker` | packages/nativescript-splitsheet/src-native/SplitSheetDemo/splitsheet/src/main/java/io/github/triniwiz/splitsheet/SplitSheet.kt:227-262 | the same for every run: once set, `isDragging` stays set for the widget's lifetime |
| `Traces.DisabledTouchesAreInert` | packages/nativescript-splitsheet/src-native/SplitSheetDemo/splitsheet/src/main/java/io/github/triniwiz/splitsheet/SplitSheet.kt:235-239 | with scrolling disabled, any run of touch events leaves the whole widget unchanged and reports nothing |
| `Traces.OffsetShowingValues` | packages/nativescript-splitsheet/src-native/SplitSheetDemo/splitsheet/src/main/java/io/github/triniwiz/splitsheet/SplitSheet.kt:191-207 | one offset change reports the new showing flag once if it changed and not at all otherwise |
| `Traces.OffsetRunIsRun` | packages/nativescript-splitsheet/src-native/SplitSheetDemo/splitsheet/src/main/java/io/github/triniwiz/splitsheet/SplitSheet.kt:187-224 | feeding offsets to the listener alone is the same as a widget run made only of offset changes |
| `Traces.OffsetsAlternate` | packages/nativescript-splitsheet/src-native/SplitSheetDemo/splitsheet/src/main/java/io/github/triniwiz/splitsheet/SplitSheet.kt:191-216 | while only the app bar moves, the reported `showing` values alternate, the first is the opposite of the starting flag, and the last is the final flag |
| `Traces.BeginDragAfterTap` | packages/nativescript-splitsheet/src-native/SplitSheetDemo/splitsheet/src/main/java/io/github/triniwiz/splitsheet/SplitSheet.kt:218-261 | after a drag that ended with the sheet shown, a press and release without a move leaves `isTouch` and `isDragging` set, so the next intermediate offset reports `beginDrag` with no finger down |

## Left out

- `onMeasure`, `scroll`, and the pixel arithmetic in `show` (`toPx`, `toDip`, display density) are left out. They rely on the animator, interpolators and layout behaviour, and on floating-point dp/px conversion. `Show` reports only whether `scroll` is called.
- The end-of-animation callback in `scroll` is left out with the animation. It sets `showing` and reports it once the animation finishes.
- The `LayoutParams(context, attrs)` constructor and `generateLayoutParams(attrs)` are left out. They parse styled attributes through the Android resource runtime.
- `generateLayoutParams(p)` is `FromSource`. The null source it accepts, which fails in the framework's constructor, is not modelled.
- Only width and height of the layout parameters are modelled. Margins and gravity play no part in this logic.
- The value of the attribute key `R.styleable.SplitSheet_Layout_sheet_position` is left out. The resource compiler generates it, so the model uses a fixed constant.
- NaN and infinite stored floats are left out. The only floats the modelled constructors and the setter store are integer codes.
- The setters of `displaceContent`, `showHandle`, `animationDuration`, `mainViewElevation` and `mainViewBackgroundColor` are left out. They only change views.
- The handle-visibility update in `updateShowing` is left out for the same reason.
- `minimumSheetHeight` and `closedSheetHeight` are left out. Only the pixel arithmetic uses them.
- The view-binding inflation in `init` is left out. The model starts from the attached content root (`Init`).
- Some state is declared but never read: `state`, `setState`, `Detents`, `detents`, `disabledBehaviour`, `snappingDistance` and the listener's `didInit`. None of it is modelled. `mScrollable` is also never read, but it is modelled because `updateShowing` writes it.
- The commented-out code in the `isScrollEnabled` setter and in `show` is left out. It is dead code.
- The 40 ms `handler.postDelayed` delay before `endDrag` is left out. The model reports `endDrag` immediately, after any `showing` event of the same call. In the widget, an event raised within those 40 ms can reach the listener before the delayed `endDrag`.
- The listener is assumed to be attached. With no listener (`eventListener` null), the widget drops the events it would report. The state changes are the same.
- Other framework behaviour is left out or made a parameter:
  - `super.dispatchTouchEvent` is the parameter `superHandled`.
  - How the children handle forwarded touch events is left out. The model records only which children receive them.
  - The framework exception for adding a view that already has a parent (for example, calling `setup` twice with the same views) is left out.
- The demo screens `apps/demo/src/plugin-demos/nativescript-freshchat.ts` and `apps/demo-react/src/plugin-demos/nativescript-freshchat.tsx` are left out. They are UI glue with no logic.

=== FILE: events.dfy ===
/**
  The events the widget reports through `Events.event(name, value)`, and the
  bookkeeping used to state how `beginDrag` and `endDrag` alternate in a trace.
 */
module Events {
  import opened Wrappers

  datatype Event =
    | ShowingChanged(showing: bool)   // "showing", with the new flag
    | BeginDrag                       // "beginDrag", no value
    | EndDrag                         // "endDrag", no value
  {
    /** The name passed to the listener. */
    function Name(): string
    {
      match this
      case ShowingChanged(_) => "showing"
      case BeginDrag => "beginDrag"
      case EndDrag => "endDrag"
    }

    /** The value passed to the listener; `null` for the drag events. */
    function Payload(): Option<bool>
    {
      match this
      case ShowingChanged(b) => Some(b)
      case _ => None
    }
  }

  /** Each event is identified by its name and value. */
  lemma NameAndPayloadIdentify(e: Event, f: Event)
    ensures e.Name() == f.Name() && e.Payload() == f.Payload() ==> e == f
  {
  }

  /**
    Whether a drag has been reported as begun and not yet ended, after the
    events `es`, starting from `open`.
   */
  function DragOpen(open: bool, es: seq<Event>): bool
  {
    if es == [] then open
    else
      match es[|es| - 1]
      case BeginDrag => true
      case EndDrag => false
      case ShowingChanged(_) => DragOpen(open, es[..|es| - 1])
  }

  /** No `beginDrag` is reported while a drag is already open. */
  ghost predicate NoNestedBegin(open: bool, es: seq<Event>)
  {
    forall i :: 0 <= i < |es| && es[i] == BeginDrag ==> !DragOpen(open, es[..i])
  }

  /** Between any two `beginDrag` events lies an `endDrag`. */
  ghost predicate EndBetweenBegins(es: seq<Event>)
  {
    forall i, j :: 0 <= i < j < |es| && es[i] == BeginDrag && es[j] == BeginDrag ==>
      exists k :: i < k < j && es[k] == EndDrag
  }

  /** Folding the events of two consecutive stretches of a trace one after the other. */
  lemma {:induction false} DragOpenAppend(open: bool, a: seq<Event>, b: seq<Event>)
    ensures DragOpen(open, a + b) == DragOpen(DragOpen(open, a), b)
    decreases |b|
  {
    if b == [] {
      assert a + b == a;
    } else {
      assert (a + b)[..|a + b| - 1] == a + b[..|b| - 1];
      DragOpenAppend(open, a, b[..|b| - 1]);
    }
  }

  /** `NoNestedBegin` holds of a trace when it holds of both stretches, each from its own start. */
  lemma NoNestedBeginAppend(open: bool, a: seq<Event>, b: seq<Event>)
    requires NoNestedBegin(open, a)
    requires NoNestedBegin(DragOpen(open, a), b)
    ensures NoNestedBegin(open, a + b)
  {
    forall i | 0 <= i < |a + b| && (a + b)[i] == BeginDrag
      ensures !DragOpen(open, (a + b)[..i])
    {
      if i < |a| {
        assert (a + b)[..i] == a[..i];
      } else {
        assert (a + b)[..i] == a + b[..i - |a|];
        DragOpenAppend(open, a, b[..i - |a|]);
      }
    }
  }

  /** An open drag closes again only through an `endDrag`. */
  lemma {:induction false} ClosingNeedsEnd(open: bool, es: seq<Event>, m: nat, n: nat)
    requires m <= n <= |es|
    requires DragOpen(open, es[..m]) && !DragOpen(open, es[..n])
    ensures exists k :: m <= k < n && es[k] == EndDrag
    decreases n
  {
    assert m < n;
    assert es[..n][..n - 1] == es[..n - 1];
    if es[n - 1] == EndDrag {
    } else {
      ClosingNeedsEnd(open, es, m, n - 1);
    }
  }

  /** A trace without nested begins has an `endDrag` between any two `beginDrag`s. */
  lemma NoNestedBeginSeparates(open: bool, es: seq<Event>)
    requires NoNestedBegin(open, es)
    ensures EndBetweenBegins(es)
  {
    forall i, j | 0 <= i < j < |es| && es[i] == BeginDrag && es[j] == BeginDrag
      ensures exists k :: i < k < j && es[k] == EndDrag
    {
      assert es[..i + 1][..i] == es[..i];
      assert DragOpen(open, es[..i + 1]);
      assert !DragOpen(open, es[..j]);
      ClosingNeedsEnd(open, es, i + 1, j);
    }
  }
}

=== FILE: kotlin.dfy ===
/**
  The small part of Kotlin's numeric semantics the split-sheet widget relies on:
  the 32-bit `Int`, `kotlin.math.abs` on it, and `Float.roundToInt()`.
  Floats are modelled as reals; NaN and the infinities are not modelled.
 */
module Kotlin {

  const MIN_VALUE: int := -0x8000_0000
  const MAX_VALUE: int := 0x7fff_ffff

  /** Kotlin's `Int`. */
  type Int32 = x: int | MIN_VALUE <= x <= MAX_VALUE

  /** `kotlin.math.abs(Int)`: two's complement, so `Int.MIN_VALUE` is its own absolute value. */
  function Abs(x: Int32): (r: Int32)
    ensures x != MIN_VALUE ==> 0 <= r && (r == x || r == -x)
    ensures x == MIN_VALUE ==> r == MIN_VALUE
  {
    if x == MIN_VALUE then x else if x < 0 then -x else x
  }

  /**
    `Float.roundToInt()`: the nearest `Int`, ties rounded towards positive
    infinity, saturating at the bounds of `Int`.
   */
  function RoundToInt(x: real): (r: Int32)
    ensures MIN_VALUE < r < MAX_VALUE ==> r as real - 0.5 <= x < r as real + 0.5
    ensures r == MIN_VALUE ==> x < MIN_VALUE as real + 0.5
    ensures r == MAX_VALUE ==> MAX_VALUE as real - 0.5 <= x
  {
    var n := (x + 0.5).Floor;
    if n < MIN_VALUE then MIN_VALUE else if n > MAX_VALUE then MAX_VALUE else n
  }

  /** Storing an `Int` as a `Float` and rounding it back gives the same `Int`. */
  lemma RoundToIntOfInt(n: Int32)
    ensures RoundToInt(n as real) == n
  {
    assert (n as real + 0.5).Floor == n;
  }
}

=== FILE: layout_params.dfy ===
/**
  `SplitSheet.LayoutParams`: frame layout parameters extended with a sparse
  table of numeric and string attributes. The sheet position is one numeric
  attribute, stored as a float under a fixed key.
 */
module SheetLayout {
  import opened Wrappers
  import opened Kotlin
  import opened Positions

  /** `ViewGroup.LayoutParams.MATCH_PARENT`. */
  const MATCH_PARENT: Int32 := -1

  /**
    `R.styleable.SplitSheet_Layout_sheet_position`, the attribute key of the
    sheet position. Its value is generated by the resource compiler; only its
    identity matters here.
   */
  const SHEET_POSITION: int := 0

  /**
    The fields of a split-sheet `LayoutParams`: the width and height it
    inherits from `ViewGroup.LayoutParams`, and the two attribute tables.
   */
  datatype Fields = Fields(
    width: Int32,
    height: Int32,
    numericAttributes: map<int, real>,
    stringAttributes: map<int, string>)

  /** Every constructor stores a sheet position, so a `LayoutParams` always has one. */
  type LayoutParams = lp: Fields | SHEET_POSITION in lp.numericAttributes
    witness Fields(MATCH_PARENT, MATCH_PARENT, map[SHEET_POSITION := -1.0], map[])

  /** The layout parameters a child view can carry: the widget's own, or any other kind. */
  datatype ViewLayoutParams =
    | Foreign(width: Int32, height: Int32)
    | Sheet(params: LayoutParams)
  {
    function Width(): Int32
    {
      match this
      case Foreign(w, _) => w
      case Sheet(p) => p.width
    }

    function Height(): Int32
    {
      match this
      case Foreign(_, h) => h
      case Sheet(p) => p.height
    }
  }

  /** The `position` getter: the stored float, rounded, decoded, Undefined when unknown. */
  function GetPosition(lp: LayoutParams): (r: Position)
    ensures var code := RoundToInt(lp.numericAttributes[SHEET_POSITION]);
            if code in {-1, 0, 1} then Value(r) == code else r == Undefined
  {
    FromIntOrDefault(Some(RoundToInt(lp.numericAttributes[SHEET_POSITION])), Undefined)
  }

  /** The `position` setter: stores the position's code, as a float, and nothing else. */
  function SetPosition(lp: LayoutParams, p: Position): (r: LayoutParams)
    ensures GetPosition(r) == p
    ensures r.width == lp.width && r.height == lp.height
    ensures r.stringAttributes == lp.stringAttributes
    ensures r.numericAttributes.Keys == lp.numericAttributes.Keys
    ensures forall k :: k in lp.numericAttributes && k != SHEET_POSITION ==>
              r.numericAttributes[k] == lp.numericAttributes[k]
  {
    var r := lp.(numericAttributes := lp.numericAttributes[SHEET_POSITION := Value(p) as real]);
    RoundToIntOfInt(Value(p));
    r
  }

  /** The `LayoutParams(width, height)` constructor: no attributes but an Undefined position. */
  function FromSize(width: Int32, height: Int32): (r: LayoutParams)
    ensures r.width == width && r.height == height
    ensures GetPosition(r) == Undefined
    ensures r.numericAttributes.Keys == {SHEET_POSITION}
    ensures r.stringAttributes == map[]
  {
    Fields(width, height, map[SHEET_POSITION := -1.0], map[])
  }

  /**
    The `LayoutParams(source)` constructor: copies the size, and clones the
    attribute tables when the source is a split-sheet `LayoutParams`;
    otherwise starts from an Undefined position.
   */
  function FromSource(source: ViewLayoutParams): (r: LayoutParams)
    ensures r.width == source.Width() && r.height == source.Height()
    ensures source.Sheet? ==>
              && r.numericAttributes == source.params.numericAttributes
              && r.stringAttributes == source.params.stringAttributes
              && GetPosition(r) == GetPosition(source.params)
    ensures source.Foreign? ==>
              && GetPosition(r) == Undefined
              && r.numericAttributes.Keys == {SHEET_POSITION}
              && r.stringAttributes == map[]
  {
    match source
    case Sheet(p) => p
    case Foreign(w, h) => Fields(w, h, map[SHEET_POSITION := -1.0], map[])
  }

  /** `generateDefaultLayoutParams`: fill the parent in both directions. */
  function GenerateDefaultLayoutParams(): (r: LayoutParams)
    ensures r.width == MATCH_PARENT && r.height == MATCH_PARENT
    ensures GetPosition(r) == Undefined
  {
    FromSize(MATCH_PARENT, MATCH_PARENT)
  }

  /**
    `checkLayoutParams`: only the widget's own parameters are accepted as they
    are; converting accepted parameters changes nothing.
   */
  function CheckLayoutParams(p: ViewLayoutParams): (r: bool)
    ensures r <==> p.Sheet?
    ensures r ==> FromSource(p) == p.params
    ensures !r ==> GetPosition(FromSource(p)) == Undefined
  {
    p.Sheet?
  }

  /** Setting a position and reading it back gives that position, whatever was stored before. */
  lemma GetAfterSet(lp: LayoutParams, p: Position, q: Position)
    ensures GetPosition(SetPosition(SetPosition(lp, q), p)) == p
    ensures SetPosition(SetPosition(lp, q), p) == SetPosition(lp, p)
  {
  }

  /** Converting any parameters the widget did not build itself reads back Undefined. */
  lemma NewParamsAreUndefined(source: ViewLayoutParams, width: Int32, height: Int32)
    ensures GetPosition(FromSize(width, height)) == Undefined
    ensures source.Foreign? ==> GetPosition(FromSource(source)) == Undefined
    ensures CheckLayoutParams(source) ==> GetPosition(FromSource(source)) == GetPosition(source.params)
  {
  }
}

=== FILE: positions.dfy ===
/**
  `SplitSheet.Position`: where a child asks to be placed, with its integer
  code, and the two decoders from an integer code back to a position.
 */
module Positions {
  import opened Wrappers
  import opened Kotlin

  datatype Position = Undefined | Top | Bottom

  /** The integer code a position carries (`Position.value`). */
  function Value(p: Position): (r: Int32)
    ensures r in {-1, 0, 1}
    ensures p == Undefined <==> r == -1
    ensures p == Top <==> r == 0
  {
    match p
    case Undefined => -1
    case Top => 0
    case Bottom => 1
  }

  /** No two positions share a code. */
  lemma ValueInjective(p: Position, q: Position)
    ensures Value(p) == Value(q) ==> p == q
  {
  }

  /** `Position.fromInt`: the position with the given code, or null for any other integer. */
  function FromInt(value: Int32): (r: Option<Position>)
    ensures r.Some? <==> value in {-1, 0, 1}
    ensures r.Some? ==> Value(r.get) == value
  {
    if value == -1 then Some(Undefined)
    else if value == 0 then Some(Top)
    else if value == 1 then Some(Bottom)
    else None
  }

  /**
    `Position.fromIntOrDefault`: a missing value stands for the code -2, which
    no position has, so both a missing and an unknown code give `def`.
   */
  function FromIntOrDefault(value: Option<Int32>, def: Position): (r: Position)
    ensures value.None? ==> r == def
    ensures value.Some? && value.get !in {-1, 0, 1} ==> r == def
    ensures value.Some? && value.get in {-1, 0, 1} ==> Value(r) == value.get
  {
    FromInt(value.Elvis(-2)).Elvis(def)
  }

  /** Decoding a position's own code gives the position back. */
  lemma FromIntOfValue(p: Position)
    ensures FromInt(Value(p)) == Some(p)
  {
  }

  /** Every decoded position came from its own code: `fromInt` and `value` are inverse. */
  lemma ValueOfFromInt(value: Int32, p: Position)
    ensures FromInt(value) == Some(p) <==> Value(p) == value
  {
  }

  /** With a present, known code the default plays no part. */
  lemma FromIntOrDefaultAgrees(value: Int32, def: Position)
    ensures FromInt(value).Some? ==> FromIntOrDefault(Some(value), def) == FromInt(value).get
    ensures FromInt(value).None? ==> FromIntOrDefault(Some(value), def) == def
  {
  }
}

=== FILE: split_sheet.dfy ===
/**
  The `SplitSheet` widget as an immutable record of its flags and child slots,
  with one pure transition per entry point. A transition returns the new record
  and the events it reports to the listener, in order.
 */
module SplitSheet {
  import opened Wrappers
  import opened Kotlin
  import opened Positions
  import opened SheetLayout
  import opened Events
  import opened Touch

  /** A view, identified by reference, with the layout parameters it carries (possibly none). */
  datatype View = View(id: nat, layoutParams: Option<ViewLayoutParams>)

  datatype Widget = Widget(
    root: nat,                  // the inflated content root of the widget's own layout
    attached: seq<nat>,         // children added to the widget's frame itself
    mainContainer: seq<nat>,    // children of the main container
    sheetContainer: seq<nat>,   // children of the sheet container
    mainView: Option<View>,
    sheetView: Option<View>,
    showing: bool,
    swipeUpToShowAllowed: bool,
    scrollable: bool,           // `mScrollable`
    isScrollEnabled: bool,
    tracker: Tracker,           // the touch-gesture tracker
    didEmit: bool)              // the offset listener's "beginDrag already reported"

  /** A transition's new state and the events it reports, in order. */
  datatype Outcome = Outcome(widget: Widget, events: seq<Event>)

  /** The widget once its constructor has run: the content root is attached and nothing else. */
  function Init(root: nat): (w: Widget)
    ensures w.root == root
    ensures w.attached == [root] && w.mainContainer == [] && w.sheetContainer == []
    ensures w.mainView.None? && w.sheetView.None?
    ensures !w.showing && w.swipeUpToShowAllowed && w.scrollable && w.isScrollEnabled
    ensures w.tracker == Touch.Initial && !w.didEmit
  {
    var w := Widget(root, [], [], [], None, None, false, true, true, true, Touch.Initial, false);
    AddView(w, View(root, None), GenerateDefaultLayoutParams()).widget
  }

  /** The ids of the slotted children, main view first. */
  function SlotIds(w: Widget): seq<nat>
  {
    (if w.mainView.Some? then [w.mainView.get.id] else [])
    + (if w.sheetView.Some? then [w.sheetView.get.id] else [])
  }

  // ---------------------------------------------------------------------------
  // Showing

  /**
    `updateShowing`: sets and reports the flag; when swiping up to show is not
    allowed, scrolling is allowed exactly while the sheet shows.
   */
  function UpdateShowing(w: Widget, showing: bool): (r: Outcome)
    ensures r.widget.showing == showing
    ensures r.events == [ShowingChanged(showing)]
    ensures !w.swipeUpToShowAllowed ==> r.widget.scrollable == showing
    ensures w.swipeUpToShowAllowed ==> r.widget.scrollable == w.scrollable
    ensures r.widget.(showing := w.showing, scrollable := w.scrollable) == w
  {
    var w1 := w.(showing := showing);
    var w2 := if !w.swipeUpToShowAllowed then w1.(scrollable := showing) else w1;
    Outcome(w2, [ShowingChanged(showing)])
  }

  /** The result of `show`: the new state, and whether `scroll` is called. */
  datatype Shown = Shown(widget: Widget, scrolls: bool)

  /**
    `show`: returns at once when the sheet is already in the requested state;
    otherwise records the new state and calls `scroll` towards it.
   */
  function Show(w: Widget, shouldShow: bool): (r: Shown)
    ensures r.widget.showing == shouldShow
    ensures r.scrolls <==> w.showing != shouldShow
    ensures r.widget == w.(showing := shouldShow)
  {
    if shouldShow == w.showing then Shown(w, false)
    else Shown(w.(showing := shouldShow), true)
  }

  /** Showing twice in the same direction: the second call is a no-op. */
  lemma ShowIdempotent(w: Widget, b: bool)
    ensures Show(Show(w, b).widget, b) == Shown(Show(w, b).widget, false)
  {
  }

  // ---------------------------------------------------------------------------
  // Child slotting

  /**
    The private `setup`: resets the showing state, then hands the slotted
    children to their containers.
   */
  function Setup(w: Widget): (r: Outcome)
    ensures r.events == [ShowingChanged(false)]
    ensures !r.widget.showing
    ensures r.widget.mainContainer ==
              w.mainContainer + (if w.mainView.Some? then [w.mainView.get.id] else [])
    ensures r.widget.sheetContainer ==
              w.sheetContainer + (if w.sheetView.Some? then [w.sheetView.get.id] else [])
    ensures r.widget.mainView == w.mainView && r.widget.sheetView == w.sheetView
    // the `mScrollable` coupling of `updateShowing`, now that the sheet is hidden
    ensures !w.swipeUpToShowAllowed ==> !r.widget.scrollable
    ensures w.swipeUpToShowAllowed ==> r.widget.scrollable == w.scrollable
    // nothing else changes
    ensures r.widget.(showing := w.showing, scrollable := w.scrollable,
                      mainContainer := w.mainContainer, sheetContainer := w.sheetContainer) == w
  {
    var u := UpdateShowing(w, false);
    var w1 := u.widget;
    var w2 := if w1.mainView.Some? then w1.(mainContainer := w1.mainContainer + [w1.mainView.get.id]) else w1;
    var w3 := if w2.sheetView.Some? then w2.(sheetContainer := w2.sheetContainer + [w2.sheetView.get.id]) else w2;
    Outcome(w3, u.events)
  }

  /** The public `setup(mainView, sheetView)`: fills both slots, then sets up. */
  function SetupWith(w: Widget, mainView: View, sheetView: View): (r: Outcome)
    ensures r.widget.mainView == Some(mainView) && r.widget.sheetView == Some(sheetView)
    ensures r.widget.mainContainer == w.mainContainer + [mainView.id]
    ensures r.widget.sheetContainer == w.sheetContainer + [sheetView.id]
    ensures r.events == [ShowingChanged(false)] && !r.widget.showing
    ensures !w.swipeUpToShowAllowed ==> !r.widget.scrollable
    ensures w.swipeUpToShowAllowed ==> r.widget.scrollable == w.scrollable
    ensures r.widget.(showing := w.showing, scrollable := w.scrollable,
                      mainContainer := w.mainContainer, sheetContainer := w.sheetContainer,
                      mainView := w.mainView, sheetView := w.sheetView) == w
  {
    Setup(w.(mainView := Some(mainView), sheetView := Some(sheetView)))
  }

  /**
    The split-sheet parameters `addView` reads for a child: the child's own
    when they are split-sheet parameters, otherwise a conversion of what the
    child carries, or of the defaults when it carries none.
   */
  function ChildParams(child: View): (lp: LayoutParams)
    ensures child.layoutParams.Some? && child.layoutParams.get.Sheet? ==>
              lp == child.layoutParams.get.params
    ensures !(child.layoutParams.Some? && child.layoutParams.get.Sheet?) ==>
              GetPosition(lp) == Undefined
  {
    match child.layoutParams
    case Some(Sheet(lp)) => lp
    case Some(other) => FromSource(other)
    case None => FromSource(Sheet(GenerateDefaultLayoutParams()))
  }

  /** The position `addView` sees for a child. */
  function ChildPosition(child: View): Position
  {
    GetPosition(ChildParams(child))
  }

  /**
    `addView(child, index, params)`: the content root goes into the frame;
    any other child with an Undefined position fills the main slot, then the
    sheet slot (which sets the widget up); every other child is dropped. The
    `params` argument is not consulted: the position is read from the child.
   */
  function AddView(w: Widget, child: View, params: LayoutParams): (r: Outcome)
    ensures child.id == w.root ==> r == Outcome(w.(attached := w.attached + [child.id]), [])
    ensures child.id != w.root ==> r.widget.attached == w.attached
    // a filled slot is never overwritten
    ensures w.mainView.Some? ==> r.widget.mainView == w.mainView
    ensures w.sheetView.Some? ==> r.widget.sheetView == w.sheetView
    // a slot is filled only with this child, only if it is not the root and is Undefined
    ensures r.widget.mainView != w.mainView ==>
              r.widget.mainView == Some(child) && child.id != w.root && ChildPosition(child) == Undefined
    ensures r.widget.sheetView != w.sheetView ==>
              r.widget.sheetView == Some(child) && child.id != w.root && ChildPosition(child) == Undefined
    // the main slot is filled before the sheet slot, and one call fills at most one slot
    ensures r.widget.sheetView != w.sheetView ==> w.mainView.Some? && r.widget.mainView == w.mainView
    // an Undefined child is taken whenever a slot is free
    ensures child.id != w.root && ChildPosition(child) == Undefined && (w.mainView.None? || w.sheetView.None?) ==>
              r.widget.mainView != w.mainView || r.widget.sheetView != w.sheetView
    // setting up happens exactly when the sheet slot is filled
    ensures r.widget.sheetView != w.sheetView ==> r == Setup(w.(sheetView := Some(child)))
    ensures r.widget.sheetView == w.sheetView ==> r.events == [] && r.widget.mainContainer == w.mainContainer
    // a child that fills no slot is dropped, and filling the main slot changes nothing else
    ensures child.id != w.root && r.widget.sheetView == w.sheetView ==>
              r == Outcome(w.(mainView := r.widget.mainView), [])
  {
    if child.id == w.root then
      Outcome(w.(attached := w.attached + [child.id]), [])
    else
      var position := ChildPosition(child);
      if w.mainView.None? && position == Undefined then
        Outcome(w.(mainView := Some(child)), [])
      else if w.sheetView.None? && position == Undefined then
        Setup(w.(sheetView := Some(child)))
      else
        Outcome(w, [])
  }

  /** `addView` ignores the layout parameters passed to it. */
  lemma AddViewIgnoresParams(w: Widget, child: View, p: LayoutParams, q: LayoutParams)
    ensures AddView(w, child, p) == AddView(w, child, q)
  {
  }

  /** Children that `addView` would slot: not the root, Undefined position. */
  function Slottable(root: nat, children: seq<View>): (r: seq<View>)
    ensures forall i :: 0 <= i < |r| ==> r[i] in children && r[i].id != root && ChildPosition(r[i]) == Undefined
    ensures forall c :: c in children && c.id != root && ChildPosition(c) == Undefined ==> c in r
    decreases |children|
  {
    if children == [] then []
    else
      var c := children[|children| - 1];
      Slottable(root, children[..|children| - 1])
      + (if c.id != root && ChildPosition(c) == Undefined then [c] else [])
  }

  /** Adding children one after the other. */
  function AddViews(w: Widget, children: seq<View>, params: LayoutParams): (r: Outcome)
    decreases |children|
  {
    if children == [] then Outcome(w, [])
    else
      var o := AddViews(w, children[..|children| - 1], params);
      var o2 := AddView(o.widget, children[|children| - 1], params);
      Outcome(o2.widget, o.events + o2.events)
  }

  /**
    Into empty slots, the first slottable child becomes the main view, the
    second the sheet view, and later ones are dropped; the widget is set up
    (one `showing` event) exactly when a second one arrives.
   */
  lemma {:induction false} AddViewsSlots(w: Widget, children: seq<View>, params: LayoutParams)
    requires w.mainView.None? && w.sheetView.None?
    ensures var r := AddViews(w, children, params).widget;
            var s := Slottable(w.root, children);
            && r.mainView == (if |s| >= 1 then Some(s[0]) else None)
            && r.sheetView == (if |s| >= 2 then Some(s[1]) else None)
            && r.root == w.root
    ensures var s := Slottable(w.root, children);
            AddViews(w, children, params).events == (if |s| >= 2 then [ShowingChanged(false)] else [])
    decreases |children|
  {
    if children != [] {
      var pre := children[..|children| - 1];
      var c := children[|children| - 1];
      AddViewsSlots(w, pre, params);
      var s := Slottable(w.root, pre);
      var s' := Slottable(w.root, children);
      assert s' == s + (if c.id != w.root && ChildPosition(c) == Undefined then [c] else []);
      var o := AddViews(w, pre, params);
      var o2 := AddView(o.widget, c, params);
      assert AddViews(w, children, params) == Outcome(o2.widget, o.events + o2.events);
      if |s| >= 1 {
        assert s'[0] == s[0];
      }
      if |s| >= 2 {
        assert s'[1] == s[1];
      }
      if c.id != w.root && ChildPosition(c) == Undefined {
        if |s| == 0 {
          assert o2 == Outcome(o.widget.(mainView := Some(c)), []);
        } else if |s| == 1 {
          assert o2 == Setup(o.widget.(sheetView := Some(c)));
        } else {
          assert o2 == Outcome(o.widget, []);
        }
      } else {
        assert o2.widget.(attached := o.widget.attached) == o.widget && o2.events == [];
      }
    }
  }

  // ---------------------------------------------------------------------------
  // Touch dispatch

  /** The result of `dispatchTouchEvent`: the new state, the return value, and the children the event was handed to directly, bypassing the frame. */
  datatype Dispatched = Dispatched(widget: Widget, handled: bool, forwardedTo: seq<nat>)

  /**
    `dispatchTouchEvent`. With scrolling disabled the event goes straight to
    the slotted children and counts as handled; otherwise the tracker records
    it and the frame's own dispatch decides, which `superHandled` stands for.
   */
  function DispatchTouchEvent(w: Widget, action: Int32, superHandled: bool): (r: Dispatched)
    ensures !w.isScrollEnabled ==> r.handled && r.widget == w && r.forwardedTo == SlotIds(w)
    ensures w.isScrollEnabled ==>
              && r.handled == superHandled
              && r.forwardedTo == []
              && r.widget == w.(tracker := Track(w.tracker, action))
  {
    if !w.isScrollEnabled then
      Dispatched(w, true, SlotIds(w))
    else
      Dispatched(w.(tracker := Track(w.tracker, action)), superHandled, [])
  }

  // ---------------------------------------------------------------------------
  // App-bar offset listener

  /** The app bar sits at its resting offset: the sheet is closed. */
  predicate AtRest(verticalOffset: Int32)
  {
    verticalOffset == 0
  }

  /** The app bar is scrolled all the way: the sheet is fully shown. */
  predicate AtEnd(verticalOffset: Int32, totalScrollRange: Int32)
  {
    verticalOffset != 0 && Abs(verticalOffset) >= totalScrollRange
  }

  /**
    `onOffsetChanged`. At rest or at the end, the showing flag takes its new
    value (reported only if it changes) and a finished drag is reported and
    cleared. In between, the first offset change of a touch drag reports that
    the drag began. The posted `endDrag` is reported at once, after `showing`.
   */
  function OnOffsetChanged(w: Widget, verticalOffset: Int32, totalScrollRange: Int32): (r: Outcome)
    ensures var atRest, atEnd := AtRest(verticalOffset), AtEnd(verticalOffset, totalScrollRange);
            && r.widget.showing == (if atRest then false else if atEnd then true else w.showing)
            // a showing event exactly when the flag changes, carrying its new value
            && (ShowingChanged(r.widget.showing) in r.events <==> r.widget.showing != w.showing)
            && ShowingChanged(w.showing) !in r.events
            && ShowingChanged(!r.widget.showing) !in r.events
            // an end of drag exactly when a drag finished and the bar reached rest or the end
            && (EndDrag in r.events <==> (atRest || atEnd) && w.tracker.didDrag)
            && (EndDrag in r.events ==> !r.widget.tracker.didDrag && !r.widget.didEmit)
            // a begin of drag exactly on the first intermediate offset of a touch drag
            && (BeginDrag in r.events <==>
                  !atRest && !atEnd && w.tracker.isTouch && w.tracker.isDragging && !w.didEmit)
            && (BeginDrag in r.events ==> r.widget.didEmit)
    // each event at most once, the showing event first
    ensures |r.events| <= 2
    ensures |r.events| == 2 ==> r.events == [ShowingChanged(r.widget.showing), EndDrag]
    // only the listener's flags change
    ensures r.widget.(showing := w.showing, didEmit := w.didEmit, tracker := w.tracker) == w
    ensures r.widget.tracker == w.tracker.(didDrag := r.widget.tracker.didDrag)
    ensures EndDrag !in r.events ==> r.widget.tracker.didDrag == w.tracker.didDrag
    ensures r.widget.didEmit != w.didEmit ==> BeginDrag in r.events || EndDrag in r.events
  {
    if verticalOffset == 0 || Abs(verticalOffset) >= totalScrollRange then
      var target := verticalOffset != 0;
      var shown := if w.showing != target then Outcome(w.(showing := target), [ShowingChanged(target)])
                   else Outcome(w, []);
      if w.tracker.didDrag then
        Outcome(shown.widget.(tracker := w.tracker.(didDrag := false), didEmit := false),
                shown.events + [EndDrag])
      else
        shown
    else if w.tracker.isTouch && w.tracker.isDragging && !w.didEmit then
      Outcome(w.(didEmit := true), [BeginDrag])
    else
      Outcome(w, [])
  }

  /** The same offset reported twice: the second report changes and reports nothing. */
  lemma OffsetIdempotent(w: Widget, verticalOffset: Int32, totalScrollRange: Int32)
    ensures var once := OnOffsetChanged(w, verticalOffset, totalScrollRange);
            OnOffsetChanged(once.widget, verticalOffset, totalScrollRange) == Outcome(once.widget, [])
  {
  }
}

=== FILE: touch.dfy ===
/**
  The touch-gesture tracker inside `dispatchTouchEvent`: four fields of the
  widget updated by the raw action code of each motion event while scrolling
  is enabled. `isDragging` is set by the first move of a gesture and, as in the
  widget, never cleared.
 */
module Touch {
  import opened Kotlin

  /** `MotionEvent` action codes. Any other code (multi-touch, hover, outside) matches no branch. */
  const ACTION_DOWN: Int32 := 0
  const ACTION_UP: Int32 := 1
  const ACTION_MOVE: Int32 := 2
  const ACTION_CANCEL: Int32 := 3

  predicate IsRelease(action: Int32)
  {
    action == ACTION_UP || action == ACTION_CANCEL
  }

  datatype Tracker = Tracker(
    lastEvent: Int32,   // the last action recorded by the tracker
    didDrag: bool,      // a drag ended since the offset listener last reported one
    isDragging: bool,   // a move followed a press at some point
    isTouch: bool)      // a press has not yet been released after a move

  /** The fields' initial values. */
  const Initial: Tracker := Tracker(ACTION_UP, false, false, false)

  /** The recorded action is always one of the four tracked codes, and a recorded move means dragging. */
  ghost predicate Valid(t: Tracker)
  {
    && t.lastEvent in {ACTION_DOWN, ACTION_MOVE, ACTION_UP, ACTION_CANCEL}
    && (t.lastEvent == ACTION_MOVE ==> t.isDragging)
  }

  /** The `when (event.action)` block of `dispatchTouchEvent`. */
  function Track(t: Tracker, action: Int32): (r: Tracker)
    // a press is always recorded and marks the finger down
    ensures action == ACTION_DOWN ==> r == t.(lastEvent := ACTION_DOWN, isTouch := true)
    // a move counts only right after a press; later moves change nothing
    ensures action == ACTION_MOVE && t.lastEvent == ACTION_DOWN ==>
              r == t.(lastEvent := ACTION_MOVE, isDragging := true)
    ensures action == ACTION_MOVE && t.lastEvent != ACTION_DOWN ==> r == t
    // a release is always recorded; it ends a drag only when a move was the last recorded action
    ensures IsRelease(action) ==>
              && r.lastEvent == action
              && r.isDragging == t.isDragging
              && (r.didDrag <==> t.didDrag || t.lastEvent == ACTION_MOVE)
              && (r.isTouch <==> t.isTouch && t.lastEvent != ACTION_MOVE)
    ensures action !in {ACTION_DOWN, ACTION_MOVE, ACTION_UP, ACTION_CANCEL} ==> r == t
  {
    if action == ACTION_DOWN then
      t.(lastEvent := ACTION_DOWN, isTouch := true)
    else if action == ACTION_MOVE then
      if t.lastEvent == ACTION_DOWN then t.(lastEvent := ACTION_MOVE, isDragging := true) else t
    else if action == ACTION_UP || action == ACTION_CANCEL then
      var ended := t.lastEvent == ACTION_MOVE;
      t.(didDrag := t.didDrag || ended, isTouch := t.isTouch && !ended, lastEvent := action)
    else
      t
  }

  /** The tracker after a whole sequence of actions. */
  function TrackAll(t: Tracker, actions: seq<Int32>): (r: Tracker)
    decreases |actions|
  {
    if actions == [] then t
    else Track(TrackAll(t, actions[..|actions| - 1]), actions[|actions| - 1])
  }

  lemma {:induction false} TrackAllAppend(t: Tracker, a: seq<Int32>, b: seq<Int32>)
    ensures TrackAll(t, a + b) == TrackAll(TrackAll(t, a), b)
    decreases |b|
  {
    if b == [] {
      assert a + b == a;
    } else {
      assert (a + b)[..|a + b| - 1] == a + b[..|b| - 1];
      TrackAllAppend(t, a, b[..|b| - 1]);
    }
  }

  /** Every action keeps a valid tracker valid. */
  lemma TrackValid(t: Tracker, action: Int32)
    requires Valid(t)
    ensures Valid(Track(t, action))
  {
  }

  lemma {:induction false} TrackAllValid(t: Tracker, actions: seq<Int32>)
    requires Valid(t)
    ensures Valid(TrackAll(t, actions))
    decreases |actions|
  {
    if actions != [] {
      TrackAllValid(t, actions[..|actions| - 1]);
      TrackValid(TrackAll(t, actions[..|actions| - 1]), actions[|actions| - 1]);
    }
  }

  /** The tracker starts valid, from its initial values. */
  lemma InitialValid()
    ensures Valid(Initial)
  {
  }

  /** A second move changes nothing that the first did not. */
  lemma MoveIdempotent(t: Tracker)
    ensures Track(Track(t, ACTION_MOVE), ACTION_MOVE) == Track(t, ACTION_MOVE)
  {
  }

  /**
    A tap (press then release, no move) never reports a drag, and leaves
    `isTouch` set.
   */
  lemma TapIsNoDrag(t: Tracker, release: Int32)
    requires IsRelease(release)
    ensures Track(Track(t, ACTION_DOWN), release).didDrag == t.didDrag
    ensures Track(Track(t, ACTION_DOWN), release).isTouch
  {
  }

  /** Press, move, release always reports a drag and clears `isTouch`. */
  lemma DragGesture(t: Tracker, release: Int32)
    requires IsRelease(release)
    ensures TrackAll(t, [ACTION_DOWN, ACTION_MOVE, release]).didDrag
    ensures !TrackAll(t, [ACTION_DOWN, ACTION_MOVE, release]).isTouch
    ensures TrackAll(t, [ACTION_DOWN, ACTION_MOVE, release]).isDragging
  {
    assert [ACTION_DOWN, ACTION_MOVE, release][..2] == [ACTION_DOWN, ACTION_MOVE];
    assert [ACTION_DOWN, ACTION_MOVE][..1] == [ACTION_DOWN];
    assert [ACTION_DOWN][..0] == [];
    var pressed := Track(t, ACTION_DOWN);
    assert TrackAll(t, [ACTION_DOWN]) == pressed;
    var moved := Track(pressed, ACTION_MOVE);
    assert moved.lastEvent == ACTION_MOVE && moved.isDragging;
    assert TrackAll(t, [ACTION_DOWN, ACTION_MOVE]) == moved;
    assert TrackAll(t, [ACTION_DOWN, ACTION_MOVE, release]) == Track(moved, release);
  }

  /** Neither `isDragging` nor `didDrag` is ever cleared by touch events. */
  lemma {:induction false} TrackAllMonotone(t: Tracker, actions: seq<Int32>)
    ensures t.isDragging ==> TrackAll(t, actions).isDragging
    ensures t.didDrag ==> TrackAll(t, actions).didDrag
    decreases |actions|
  {
    if actions != [] {
      TrackAllMonotone(t, actions[..|actions| - 1]);
    }
  }

  /** A contiguous press, move, release anywhere in the actions leaves a drag reported. */
  lemma GestureSetsDrag(t: Tracker, actions: seq<Int32>, i: nat)
    requires i + 2 < |actions|
    requires actions[i] == ACTION_DOWN && actions[i + 1] == ACTION_MOVE && IsRelease(actions[i + 2])
    ensures TrackAll(t, actions).didDrag
  {
    var pre, mid, post := actions[..i], actions[i..i + 3], actions[i + 3..];
    assert actions == pre + mid + post;
    assert mid == [ACTION_DOWN, ACTION_MOVE, actions[i + 2]];
    TrackAllAppend(t, pre + mid, post);
    TrackAllAppend(t, pre, mid);
    DragGesture(TrackAll(t, pre), actions[i + 2]);
    TrackAllMonotone(TrackAll(t, pre + mid), post);
  }

  ghost predicate HasDown(actions: seq<Int32>)
  {
    exists i :: 0 <= i < |actions| && actions[i] == ACTION_DOWN
  }

  ghost predicate HasDownMove(actions: seq<Int32>)
  {
    exists i, j :: 0 <= i < j < |actions| && actions[i] == ACTION_DOWN && actions[j] == ACTION_MOVE
  }

  /** Somewhere in the actions a press is followed by a move and later by a release. */
  ghost predicate HasDownMoveRelease(actions: seq<Int32>)
  {
    exists i, j, k :: 0 <= i < j < k < |actions|
      && actions[i] == ACTION_DOWN && actions[j] == ACTION_MOVE && IsRelease(actions[k])
  }

  /** Starting outside a gesture (the last recorded action a release, as initially), a recorded press needs a press. */
  lemma {:induction false} PressNeedsDown(t: Tracker, actions: seq<Int32>)
    requires IsRelease(t.lastEvent)
    ensures TrackAll(t, actions).lastEvent == ACTION_DOWN ==> HasDown(actions)
    decreases |actions|
  {
    if actions != [] {
      var n := |actions| - 1;
      var pre := actions[..n];
      PressNeedsDown(t, pre);
      if TrackAll(t, actions).lastEvent == ACTION_DOWN {
        if actions[n] != ACTION_DOWN {
          var i :| 0 <= i < |pre| && pre[i] == ACTION_DOWN;
          assert actions[i] == pre[i];
        }
      }
    }
  }

  /** Starting outside a gesture, a recorded move needs a press followed by a move. */
  lemma {:induction false} MoveNeedsDownMove(t: Tracker, actions: seq<Int32>)
    requires IsRelease(t.lastEvent)
    ensures TrackAll(t, actions).lastEvent == ACTION_MOVE ==> HasDownMove(actions)
    decreases |actions|
  {
    if actions != [] {
      var n := |actions| - 1;
      var pre := actions[..n];
      var q := TrackAll(t, pre);
      MoveNeedsDownMove(t, pre);
      if TrackAll(t, actions).lastEvent == ACTION_MOVE {
        if actions[n] == ACTION_MOVE && q.lastEvent == ACTION_DOWN {
          PressNeedsDown(t, pre);
          var i :| 0 <= i < |pre| && pre[i] == ACTION_DOWN;
          assert actions[i] == pre[i];
        } else {
          var i, j :| 0 <= i < j < |pre| && pre[i] == ACTION_DOWN && pre[j] == ACTION_MOVE;
          assert actions[i] == pre[i] && actions[j] == pre[j];
        }
      }
    }
  }

  /**
    Starting outside a gesture, a drag is reported only after a press, a move
    and a release, in that order.
   */
  lemma {:induction false} DragNeedsGesture(t: Tracker, actions: seq<Int32>)
    requires IsRelease(t.lastEvent)
    ensures TrackAll(t, actions).didDrag && !t.didDrag ==> HasDownMoveRelease(actions)
    decreases |actions|
  {
    if actions != [] {
      var n := |actions| - 1;
      var pre := actions[..n];
      var q := TrackAll(t, pre);
      DragNeedsGesture(t, pre);
      if TrackAll(t, actions).didDrag && !t.didDrag {
        if q.didDrag {
          var i, j, k :| 0 <= i < j < k < |pre|
            && pre[i] == ACTION_DOWN && pre[j] == ACTION_MOVE && IsRelease(pre[k]);
          assert actions[i] == pre[i] && actions[j] == pre[j] && actions[k] == pre[k];
        } else {
          assert IsRelease(actions[n]) && q.lastEvent == ACTION_MOVE;
          MoveNeedsDownMove(t, pre);
          var i, j :| 0 <= i < j < |pre| && pre[i] == ACTION_DOWN && pre[j] == ACTION_MOVE;
          assert actions[i] == pre[i] && actions[j] == pre[j];
        }
      }
    }
  }
}

=== FILE: traces.dfy ===
/**
  Runs of the widget: any interleaving of its entry points, and the
  properties that hold of every run's state and event trace.
 */
module Traces {
  import opened Wrappers
  import opened Positions
  import opened Kotlin
  import opened SheetLayout
  import opened Events
  import opened Touch
  import opened SplitSheet

  /** One call into the widget from the framework or the app. */
  datatype Input =
    | TouchEvent(action: Int32, superHandled: bool)
    | OffsetChanged(verticalOffset: Int32, totalScrollRange: Int32)
    | ShowRequest(shouldShow: bool)
    | ChildAdded(child: View, params: LayoutParams)
    | SetupRequest(mainView: View, sheetView: View)
    | ScrollEnabledSet(enabled: bool)
    | SwipeUpToShowAllowedSet(allowed: bool)
    | MainViewAssigned(view: Option<View>)    // the public `mainView` property
    | SheetViewAssigned(view: Option<View>)   // the public `sheetView` property

  function Step(w: Widget, input: Input): (r: Outcome)
  {
    match input
    case TouchEvent(a, h) => Outcome(DispatchTouchEvent(w, a, h).widget, [])
    case OffsetChanged(o, range) => OnOffsetChanged(w, o, range)
    case ShowRequest(b) => Outcome(Show(w, b).widget, [])
    case ChildAdded(c, p) => AddView(w, c, p)
    case SetupRequest(m, s) => SetupWith(w, m, s)
    case ScrollEnabledSet(b) => Outcome(w.(isScrollEnabled := b), [])
    case SwipeUpToShowAllowedSet(b) => Outcome(w.(swipeUpToShowAllowed := b), [])
    case MainViewAssigned(v) => Outcome(w.(mainView := v), [])
    case SheetViewAssigned(v) => Outcome(w.(sheetView := v), [])
  }

  /** The state after a run of inputs, with every event reported on the way. */
  function Run(w: Widget, inputs: seq<Input>): (r: Outcome)
    decreases |inputs|
  {
    if inputs == [] then Outcome(w, [])
    else
      var o := Run(w, inputs[..|inputs| - 1]);
      var o2 := Step(o.widget, inputs[|inputs| - 1]);
      Outcome(o2.widget, o.events + o2.events)
  }

  /** Assigning null to `mainView` frees the main slot: the next slottable child fills it again. */
  lemma ClearedSlotReopens(w: Widget, child: View, params: LayoutParams)
    requires child.id != w.root && ChildPosition(child) == Undefined
    ensures Run(w, [MainViewAssigned(None), ChildAdded(child, params)]).widget.mainView == Some(child)
  {
    var ins := [MainViewAssigned(None), ChildAdded(child, params)];
    assert ins[..1][..0] == [] && ins[..1] == [MainViewAssigned(None)];
    assert Run(w, ins[..1]).widget == w.(mainView := None);
  }

  /** One step reports `beginDrag` only while no drag is open, and keeps `didEmit` equal to "a drag is open". */
  lemma StepBracketed(w: Widget, input: Input)
    ensures var o := Step(w, input);
            && NoNestedBegin(w.didEmit, o.events)
            && o.widget.didEmit == DragOpen(w.didEmit, o.events)
  {
    match input
    case OffsetChanged(off, range) =>
      OffsetBracketed(w, off, range);
    case ChildAdded(c, p) =>
      ShowingOnlyBracketed(w.didEmit, AddView(w, c, p).events);
    case SetupRequest(m, s) =>
      ShowingOnlyBracketed(w.didEmit, SetupWith(w, m, s).events);
    case _ =>
  }

  /** One offset change reports `beginDrag` only while no drag is open, and keeps `didEmit` in step. */
  lemma OffsetBracketed(w: Widget, verticalOffset: Int32, totalScrollRange: Int32)
    ensures var o := OnOffsetChanged(w, verticalOffset, totalScrollRange);
            && NoNestedBegin(w.didEmit, o.events)
            && o.widget.didEmit == DragOpen(w.didEmit, o.events)
  {
    var o := OnOffsetChanged(w, verticalOffset, totalScrollRange);
    if |o.events| == 2 {
      assert o.events[..1] == [ShowingChanged(o.widget.showing)];
      assert o.events[..0] == [];
    } else if |o.events| == 1 {
      assert o.events[..0] == [];
    }
  }

  /** Events that only report the showing flag neither open nor close a drag. */
  lemma {:induction false} ShowingOnlyBracketed(open: bool, es: seq<Event>)
    requires |es| <= 1 && (|es| == 1 ==> es[0].ShowingChanged?)
    ensures NoNestedBegin(open, es) && DragOpen(open, es) == open
  {
    if |es| == 1 {
      assert es[..0] == [];
    }
  }

  /**
    In every run, `beginDrag` is never reported while a drag is open, and the
    listener's `didEmit` says exactly whether one is open.
   */
  lemma {:induction false} RunBracketed(w: Widget, inputs: seq<Input>)
    ensures var o := Run(w, inputs);
            && NoNestedBegin(w.didEmit, o.events)
            && o.widget.didEmit == DragOpen(w.didEmit, o.events)
    decreases |inputs|
  {
    if inputs != [] {
      var pre := inputs[..|inputs| - 1];
      var o := Run(w, pre);
      RunBracketed(w, pre);
      StepBracketed(o.widget, inputs[|inputs| - 1]);
      var o2 := Step(o.widget, inputs[|inputs| - 1]);
      NoNestedBeginAppend(w.didEmit, o.events, o2.events);
      DragOpenAppend(w.didEmit, o.events, o2.events);
    }
  }

  /** `beginDrag` is reported at most once between two `endDrag`s, from a freshly built widget or any other. */
  lemma BeginDragOncePerDrag(w: Widget, inputs: seq<Input>)
    ensures EndBetweenBegins(Run(w, inputs).events)
    ensures !w.didEmit ==> forall i :: 0 <= i < |Run(w, inputs).events| && Run(w, inputs).events[i] == BeginDrag ==>
              !DragOpen(false, Run(w, inputs).events[..i])
  {
    RunBracketed(w, inputs);
    NoNestedBeginSeparates(w.didEmit, Run(w, inputs).events);
  }

  /** Every step keeps the tracker valid and never clears `isDragging`. */
  lemma StepKeepsTracker(w: Widget, input: Input)
    requires Valid(w.tracker)
    ensures Valid(Step(w, input).widget.tracker)
    ensures w.tracker.isDragging ==> Step(w, input).widget.tracker.isDragging
  {
    match input
    case TouchEvent(a, h) =>
      TrackValid(w.tracker, a);
    case OffsetChanged(o, range) =>
      var t := OnOffsetChanged(w, o, range).widget.tracker;
      assert t == w.tracker.(didDrag := t.didDrag);
    case _ =>
  }

  /** The tracker stays valid through every run, and `isDragging`, once set, stays set. */
  lemma {:induction false} RunKeepsTracker(w: Widget, inputs: seq<Input>)
    requires Valid(w.tracker)
    ensures Valid(Run(w, inputs).widget.tracker)
    ensures w.tracker.isDragging ==> Run(w, inputs).widget.tracker.isDragging
    decreases |inputs|
  {
    if inputs != [] {
      var pre := inputs[..|inputs| - 1];
      RunKeepsTracker(w, pre);
      StepKeepsTracker(Run(w, pre).widget, inputs[|inputs| - 1]);
    }
  }

  /** With scrolling disabled, touch events leave the whole widget as it was. */
  lemma {:induction false} DisabledTouchesAreInert(w: Widget, inputs: seq<Input>)
    requires !w.isScrollEnabled
    requires forall i :: 0 <= i < |inputs| ==> inputs[i].TouchEvent?
    ensures Run(w, inputs) == Outcome(w, [])
    decreases |inputs|
  {
    if inputs != [] {
      DisabledTouchesAreInert(w, inputs[..|inputs| - 1]);
    }
  }

  /** The showing values reported by a trace, in order. */
  function ShowingValues(es: seq<Event>): seq<bool>
    decreases |es|
  {
    if es == [] then []
    else
      ShowingValues(es[..|es| - 1])
      + (match es[|es| - 1] case ShowingChanged(b) => [b] case _ => [])
  }

  /** A value is among the showing values exactly when the trace reports it. */
  lemma {:induction false} ShowingValuesMembers(es: seq<Event>, b: bool)
    ensures b in ShowingValues(es) <==> ShowingChanged(b) in es
    decreases |es|
  {
    if es != [] {
      var pre := es[..|es| - 1];
      ShowingValuesMembers(pre, b);
      assert es == pre + [es[|es| - 1]];
    }
  }

  lemma {:induction false} ShowingValuesAppend(a: seq<Event>, b: seq<Event>)
    ensures ShowingValues(a + b) == ShowingValues(a) + ShowingValues(b)
    decreases |b|
  {
    if b == [] {
      assert a + b == a;
    } else {
      assert (a + b)[..|a + b| - 1] == a + b[..|b| - 1];
      ShowingValuesAppend(a, b[..|b| - 1]);
    }
  }

  /** Each value differs from the one before it, the first from `start`. */
  ghost predicate Alternates(start: bool, vs: seq<bool>)
  {
    && (|vs| > 0 ==> vs[0] != start)
    && forall i :: 0 < i < |vs| ==> vs[i] != vs[i - 1]
  }

  lemma AlternatesExtend(start: bool, vs: seq<bool>, b: bool)
    requires Alternates(start, vs)
    requires b == !(if vs == [] then start else vs[|vs| - 1])
    ensures Alternates(start, vs + [b])
  {
    var us := vs + [b];
    forall i | 0 < i < |us| ensures us[i] != us[i - 1] {
      if i < |vs| {
        assert us[i] == vs[i] && us[i - 1] == vs[i - 1];
      } else {
        assert us[i] == b && us[i - 1] == vs[|vs| - 1];
      }
    }
  }

  /** The showing values one offset change reports: its new flag, exactly when the flag changes. */
  lemma OffsetShowingValues(w: Widget, verticalOffset: Int32, totalScrollRange: Int32)
    ensures var o := OnOffsetChanged(w, verticalOffset, totalScrollRange);
            ShowingValues(o.events) == (if o.widget.showing != w.showing then [o.widget.showing] else [])
  {
    var o := OnOffsetChanged(w, verticalOffset, totalScrollRange);
    var es := o.events;
    if |es| == 2 {
      assert es[..1] == [ShowingChanged(o.widget.showing)];
      assert es[..1][..0] == [];
    } else if |es| == 1 {
      assert es[..0] == [];
    }
  }

  /**
    Appending the showing values of one step that moved the flag from
    `before` to `after` (reporting `after` only if it differs) keeps the values
    alternating and ending in the flag.
   */
  lemma ChangeKeepsAlternating(start: bool, vs: seq<bool>, before: bool, after: bool, ws: seq<bool>)
    requires Alternates(start, vs)
    requires before == (if vs == [] then start else vs[|vs| - 1])
    requires ws == (if after != before then [after] else [])
    ensures Alternates(start, vs + ws)
    ensures after == (if vs + ws == [] then start else (vs + ws)[|vs + ws| - 1])
  {
    if after != before {
      AlternatesExtend(start, vs, after);
    } else {
      assert vs + ws == vs;
    }
  }

  /** One report of the app bar's offset, with its scroll range at that moment. */
  datatype Offset = Offset(verticalOffset: Int32, totalScrollRange: Int32)

  /** The offset listener alone, fed a run of offsets. */
  function OffsetRun(w: Widget, offsets: seq<Offset>): (r: Outcome)
    decreases |offsets|
  {
    if offsets == [] then Outcome(w, [])
    else
      var o := OffsetRun(w, offsets[..|offsets| - 1]);
      var last := offsets[|offsets| - 1];
      var o2 := OnOffsetChanged(o.widget, last.verticalOffset, last.totalScrollRange);
      Outcome(o2.widget, o.events + o2.events)
  }

  /** Feeding the listener a run of offsets is a run of the widget that only reports offsets. */
  lemma {:induction false} OffsetRunIsRun(w: Widget, offsets: seq<Offset>)
    ensures OffsetRun(w, offsets) ==
              Run(w, seq(|offsets|, i requires 0 <= i < |offsets| =>
                           OffsetChanged(offsets[i].verticalOffset, offsets[i].totalScrollRange)))
    decreases |offsets|
  {
    if offsets != [] {
      var pre := offsets[..|offsets| - 1];
      OffsetRunIsRun(w, pre);
      var ins := seq(|offsets|, i requires 0 <= i < |offsets| =>
                       OffsetChanged(offsets[i].verticalOffset, offsets[i].totalScrollRange));
      var insPre := seq(|pre|, i requires 0 <= i < |pre| =>
                          OffsetChanged(pre[i].verticalOffset, pre[i].totalScrollRange));
      assert ins[..|ins| - 1] == insPre;
    }
  }

  /**
    While only the app bar moves, the `showing` events alternate, starting
    from the opposite of the widget's flag, and the last one reported is the
    final flag.
   */
  lemma {:induction false} OffsetsAlternate(w: Widget, offsets: seq<Offset>)
    ensures var o := OffsetRun(w, offsets);
            var vs := ShowingValues(o.events);
            && Alternates(w.showing, vs)
            && o.widget.showing == (if vs == [] then w.showing else vs[|vs| - 1])
    decreases |offsets|
  {
    if offsets != [] {
      var pre := offsets[..|offsets| - 1];
      OffsetsAlternate(w, pre);
      var o := OffsetRun(w, pre);
      var last := offsets[|offsets| - 1];
      var o2 := OnOffsetChanged(o.widget, last.verticalOffset, last.totalScrollRange);
      var vs, ws := ShowingValues(o.events), ShowingValues(o2.events);
      assert OffsetRun(w, offsets) == Outcome(o2.widget, o.events + o2.events);
      assert ShowingValues(o.events + o2.events) == vs + ws by {
        ShowingValuesAppend(o.events, o2.events);
      }
      assert ws == (if o2.widget.showing != o.widget.showing then [o2.widget.showing] else []) by {
        OffsetShowingValues(o.widget, last.verticalOffset, last.totalScrollRange);
      }
      ChangeKeepsAlternating(w.showing, vs, o.widget.showing, o2.widget.showing, ws);
    }
  }

  /**
    Because `isDragging` is never cleared and a tap leaves `isTouch` set, once
    one drag has ended, a later tap is enough for an intermediate offset (from
    an animation, say, with no finger down) to be reported as `beginDrag`.
   */
  lemma BeginDragAfterTap(root: nat)
    ensures var w0 := Init(root);
            var afterDrag := Run(w0, [TouchEvent(ACTION_DOWN, true), TouchEvent(ACTION_MOVE, true),
                                      TouchEvent(ACTION_UP, true), OffsetChanged(-100, 100)]);
            var afterTap := Run(afterDrag.widget, [TouchEvent(ACTION_DOWN, true), TouchEvent(ACTION_UP, true)]);
            && afterDrag.events == [ShowingChanged(true), EndDrag]
            && afterTap.events == []
            && OnOffsetChanged(afterTap.widget, -50, 100).events == [BeginDrag]
  {
    var w0 := Init(root);
    var w1 := DispatchTouchEvent(w0, ACTION_DOWN, true).widget;
    var w2 := DispatchTouchEvent(w1, ACTION_MOVE, true).widget;
    var w3 := DispatchTouchEvent(w2, ACTION_UP, true).widget;
    assert w3.tracker == Tracker(ACTION_UP, true, true, false);
    var drag := [TouchEvent(ACTION_DOWN, true), TouchEvent(ACTION_MOVE, true), TouchEvent(ACTION_UP, true),
                 OffsetChanged(-100, 100)];
    assert drag[..1][..0] == [] && drag[..2][..1] == drag[..1] && drag[..3][..2] == drag[..2];
    assert drag[..4][..3] == drag[..3] && drag[..4] == drag;
    assert Run(w0, drag[..1]) == Outcome(w1, []);
    assert Run(w0, drag[..2]) == Outcome(w2, []);
    assert Run(w0, drag[..3]) == Outcome(w3, []);
    var o4 := OnOffsetChanged(w3, -100, 100);
    assert o4.events == [ShowingChanged(true), EndDrag];
    assert o4.widget.tracker == Tracker(ACTION_UP, false, true, false);
    assert Run(w0, drag) == o4;
    var tap := [TouchEvent(ACTION_DOWN, true), TouchEvent(ACTION_UP, true)];
    var w5 := DispatchTouchEvent(o4.widget, ACTION_DOWN, true).widget;
    var w6 := DispatchTouchEvent(w5, ACTION_UP, true).widget;
    assert tap[..1][..0] == [] && tap[..2][..1] == tap[..1] && tap[..2] == tap;
    assert Run(o4.widget, tap[..1]) == Outcome(w5, []);
    assert Run(o4.widget, tap) == Outcome(w6, []);
    assert w6.tracker == Tracker(ACTION_UP, false, true, true);
    assert !w6.didEmit;
  }
}

=== FILE: wrappers.dfy ===
/** Kotlin's nullable values: `null`, or a present value of `T`. */
module Wrappers {

  datatype Option<+T> = None | Some(get: T) {

    /** `this ?: fallback`: the present value, or `fallback` for `null`. */
    function Elvis(fallback: T): (r: T)
      ensures Some? ==> r == get
      ensures None? ==> r == fallback
    {
      if Some? then get else fallback
    }
  }
}
